=== FILE: README.md ===
# ESP8266 DHT/SGP30 Prometheus exporter — sampling and exposition core

A Dafny model of the sampling-and-exposition state machine of the
`prometheus-esp8266-dht-exporter` firmware (`src/src.cpp`): the rate-limited
scheduler `read_sensors`, the bounded retry `read_sensor`, the humidity and
temperature adapters with their calibration offsets, the heat-index guard, the
SGP30 air-quality sampler with its baseline counter, the status/body decision
of the metrics handler, and the small encoders around them (the SGP30 serial
string, HTTP method names, the log level filter and tag).

The firmware's globals are one immutable `Device.DeviceState`; every routine
is a pure function from a state and the drivers' answers to a `Device.Step`
(the new state plus an ordered trace of events: the time stamp, each driver
call, each log record). The drivers, the clock and the floating-point
library are inputs:

- a float is `Readings.Reading = NaN | Val(real)`; C's truthiness test
  `if (x)` is `Readings.Truthy`, true for NaN and false only for zero;
- a float-producing driver is the sequence of answers it gives, one per
  call; the sequence must be at least as long as the try count, which every
  producer's first answers are;
- `millis()` is the `now` argument, a `uint32_t`; unsigned wrap-around is
  written out with `Readings.Wrap32`;
- `computeHeatIndex`, `getAbsoluteHumidity` on numbers and `%f` are the
  function-valued fields of `Device.Numerics`, left uninterpreted;
- the SGP30 driver's success flags, readings and baseline for one
  `read_sgp` are an `AirQuality.SgpOutcome`.

Behaviour of the code that the model keeps as written:

- The adapters test the stored float for truthiness, not for NaN. A NaN
  reading gets the offset added (it stays NaN) and no error is logged; a
  reading of exactly 0.0 is kept, left uncorrected and logged as a failed read
  (`Dht.SilentOutage`, `Dht.ZeroIsReportedAsFailure`). The retry's return
  value is ignored.
- With a try count of zero or less, `read_sensor` does not touch the stored
  value, and the adapter adds the offset to the previous, already corrected
  value again (`Dht.NoTriesReappliesOffset`).
- The argument list of the metrics `snprintf` passes `tvoc, co2` where the
  template has the eCO2 line before the TVOC line, so the eCO2 family shows
  the TVOC count and the TVOC family the eCO2 count (`Exposition.ScrapedValues`).
  The sensor-metadata block is headed `_info` like the device block, and the
  TVOC unit line ends in a literal backslash and `t`.
- `isnan` on the four `uint16_t` counters can never be true, so the scrape
  fails only on a NaN humidity, temperature or heat index.
- When `begin()` of the SGP30 fails, only the serial stays empty:
  `setup_sgp_sensor` keeps no failed state, so every later pass still calls
  `IAQmeasure`.

## Model

| member | source | states |
|---|---|---|
| Retry.ReadSensor | src/src.cpp:329-340 | at most the try count of producer calls; stops at the first non-NaN answer, every earlier answer was NaN; with at least one try, success iff the stored value is a number; on failure all tries were used and the last NaN (or, with no tries, the old value) stays stored |
| Retry.ReadFrom | src/src.cpp:331-338 | the loop from iteration `i` on: the same facts relative to the tries already made, and the trace holds one driver call per try |
| Retry.ReadSensorLoop | src/src.cpp:329-340 | the `for`/`break` loop stores, returns and calls exactly what `Retry.ReadSensor` describes |
| Dht.Calibrate | src/src.cpp:262-266 | the offset is added to every truthy value; NaN stays NaN; exactly 0.0 is left at 0.0 |
| Dht.ReadCalibrated | src/src.cpp:255-267 | the stored value is the corrected retry result; the failure message is logged iff the retry result is exactly 0.0; the only driver calls are the tries |
| Dht.ReadHumidity | src/src.cpp:255-267 | only the humidity changes, to the corrected retry result with the humidity offset |
| Dht.ReadTemperature | src/src.cpp:269-281 | only the temperature changes, to the corrected retry result with the temperature offset |
| Dht.ReadHeatIndex | src/src.cpp:283-289 | heat index is NaN iff humidity or temperature is NaN, otherwise the library value for (temperature, humidity); the library is called only in that case; nothing else changes |
| Dht.SilentOutage | src/src.cpp:258-266 | a sensor answering NaN on every try leaves NaN and no failure message |
| Dht.ZeroIsReportedAsFailure | src/src.cpp:262-266 | a first answer of 0.0 is kept uncorrected and the failure message is logged |
| Dht.NoTriesReappliesOffset | src/src.cpp:255-267 | with a try count of zero the old, already corrected value gets the offset a second time |
| AirQuality.SerialString | src/src.cpp:84 | the serial is the three words in unpadded lower-case hex, 3 to 12 characters, never cut by the 13-byte buffer |
| AirQuality.SerialAmbiguous | src/src.cpp:84 | different serial numbers can print the same string (1,23,4 and 12,3,4) |
| AirQuality.SetupSgp | src/src.cpp:76-89 | only the serial changes, to the hex string on success; on failure the state is unchanged; the begin and setup errors are logged iff `begin()` fails; soft reset only on success |
| AirQuality.AbsoluteHumidity | src/src.cpp:291-297 | the compensation value is NaN iff temperature or humidity is NaN |
| AirQuality.ReadSgp | src/src.cpp:299-327 | the four counts are all replaced by the driver's values iff both measurements succeed, else the whole state is unchanged; the measurement error is logged iff a measurement fails, and the baseline error iff the fetch at the thirtieth success fails; nothing but the counts and the counter changes; the counter advances modulo 30 on a success and stays below 30 |
| AirQuality.SgpCalls | src/src.cpp:301-318 | the driver calls are the compensation from the stored temperature and humidity, the measurement, the raw measurement only after a successful measurement, and the baseline only when a success brings the counter to 30 |
| AirQuality.BaselineFailureUndoesNothing | src/src.cpp:314-318 | the state after `read_sgp` does not depend on the baseline fetch's outcome |
| AirQuality.BaselineStep | src/src.cpp:310-318 | one pass from a valid counter c, with m = 1 for a successful measurement: c + m is 30 times the number of baseline fetches plus the new counter |
| AirQuality.RunBalance | src/src.cpp:310-318 | over any run of passes, c + successes is 30 times the number of baseline fetches plus the final counter, which stays below 30 |
| AirQuality.BaselineCadence | src/src.cpp:310-318 | over any run of passes the counter is (c + successes) mod 30 and the baseline was fetched (c + successes) / 30 times: once per thirty successes, failed measurements not counting |
| Scheduler.MinInterval | src/src.cpp:240 | the minimum interval is at least 1000 ms and at least the configured interval, and is one of the two |
| Scheduler.Elapsed | src/src.cpp:243 | unsigned subtraction gives now − previous, plus 2^32 when the clock wrapped |
| Scheduler.ReadSensors | src/src.cpp:239-253 | a pass runs iff forced or the elapsed time reaches the minimum interval; otherwise the state, time stamp included, is unchanged and only the debug notice is logged |
| Scheduler.SamplePass | src/src.cpp:247-252 | the pass stamps the time first and keeps the serial; it stores the calibrated retry results of the humidity and temperature adapters, each seeded with the stored value; the four air-quality counts become the driver's values iff both measurements succeed, otherwise they and the counter are unchanged; the counter advances modulo 30 on a success and stays valid |
| Scheduler.PassOrder | src/src.cpp:247-252 | the stamp is the first event and the driver calls go humidity, temperature, heat index, air quality, never back |
| Scheduler.PassUsesFreshReadings | src/src.cpp:249-252 | after a pass the heat index is NaN iff the new humidity or temperature is, otherwise computed from them, and the compensation sent to the SGP30 is computed from them |
| Scheduler.QuietAfterPass | src/src.cpp:243-247 | after a pass at t0, an unforced call within the minimum interval changes nothing |
| Scheduler.LimitAcrossClockWrap | src/src.cpp:241-246 | a call 200 ms after the clock wraps, 700 ms after a pass, is held back by a 1000 ms limit |
| Scheduler.Setup | src/src.cpp:49-58 | start-up brings up the SGP30 then forces a pass: `begin()` is called, the time is stamped, the state is what a pass makes of the state after the SGP30 set-up, the counter is valid, the serial is empty iff `begin()` failed |
| Exposition.MetricsResponse | src/src.cpp:223-231 | 500 "Sensor error." iff humidity, temperature or heat index is NaN; otherwise 200 with the filled template; content type always text/plain UTF-8 |
| Exposition.HandleMetrics | src/src.cpp:181-232 | the handler refreshes through an unforced `read_sensors` and answers for the refreshed state: 500 iff one of its floats is NaN, otherwise 200 with the template filled from it; without a pass the answer is that of the old state |
| Exposition.ScrapedValues | src/src.cpp:194-230 | each measurement family's sample carries its argument: humidity, temperature, heat index, then the tvoc count under eCO2 and the co2 count under TVOC, then H2 and ethanol |
| Exposition.TemplateValue | src/src.cpp:184-221 | in the filled template a scraper looking up measurement family g finds the g-th value after the six identity arguments, never an identity sample |
| Exposition.FindInGauges | src/src.cpp:194-221 | in a run of gauges with distinct names, looking a family up yields that family's value |
| Exposition.HumidityOutageAnswers500 | src/src.cpp:223-226 | a humidity sensor failing every try during a refreshing scrape makes humidity and heat index NaN and the answer 500 |
| Exposition.ZeroHumidityServed | src/src.cpp:223-231 | a humidity of exactly 0.0 is logged as a failure yet kept, and the scrape answers 200 |
| Logging.Sink | src/src.cpp:380-383 | with the debug flag at zero no DEBUG record reaches the sink; every record carries a known tag |
| Logging.SinkKeeps | src/src.cpp:380-383 | a logged event reaches the sink iff its level passes the filter |
| Logging.PaddedTag | src/src.cpp:387-401 | the level tag printed left-justified in five columns |
| Logging.TagRoundTrip | src/src.cpp:387-399 | each level's tag identifies the level |
| HttpMethods.MethodName | src/src.cpp:351-378 | "UNKNOWN" iff the wildcard method; every name fits the 16-byte buffer |
| HttpMethods.NameRoundTrip | src/src.cpp:351-378 | every named method's name maps back to it; "UNKNOWN" maps to none |
| HttpMethods.NamesDistinct | src/src.cpp:351-378 | distinct methods get distinct names |
| Numerals.RoundTrip | src/src.cpp:84 | parsing an unpadded numeral (hex for `%x`, decimal for `%d`) gives the number back |
| Numerals.HexWordLength | src/src.cpp:84 | a 16-bit word prints as one to four hex digits |

## Left out

- Wi-Fi bring-up, static addressing and hostnames (src/src.cpp:91-149): network I/O.
- The HTTP server wiring, the request loop, `log_request`, the root and 404 handlers (src/src.cpp:151-179, 234-237, 342-349): library plumbing.
- The DHT and SGP30 drivers (`begin`, `readHumidity`, `readTemperature`, `IAQmeasure`, `IAQmeasureRaw`, `getIAQBaseline`, `softReset`, `setHumidity`): foreign calls, replaced by their answers as inputs and recorded as trace events.
- `computeHeatIndex` and `getAbsoluteHumidity` on numbers, and `%f`: floating-point numerics, kept uninterpreted; only NaN-ness is tracked.
- Float rounding: readings and offsets are reals, so `x += offset` is exact addition.
- The 2000-byte response buffer and the 128/150-byte log buffers: truncation by `snprintf` there is not modelled; the 13-byte serial and 16-byte method-name buffers are.
- The log record's timestamp and layout (src/src.cpp:385-402) and the serial line: formatting and output; only the level filter and tag are modelled.
- `setup_dht_sensor` and the delays: driver start-up and timing.
- The conversion of the absolute humidity to the `uint32_t` argument of `setHumidity` (src/src.cpp:302): the compensation is recorded as the reading itself, since only its NaN-ness and its inputs are modelled.
- Dht.ReadHeatIndex: states that `computeHeatIndex` on two numbers gives a number; the library could in principle return NaN there, which the uninterpreted function does not express.
- AirQuality.AbsoluteHumidity: states that `getAbsoluteHumidity` on two numbers gives a number; the formula is not modelled, and in C it can give NaN, for instance for a humidity of 0 at a temperature between about -249.3 and -243.12 °C, where `exp` overflows to infinity and 0 times infinity is NaN.

=== FILE: air_quality.dfy ===
/** The SGP30 air-quality adapter: `setup_sgp_sensor` (src/src.cpp:76-89),
    `getAbsoluteHumidity` as far as NaN goes (src/src.cpp:291-297) and
    `read_sgp` (src/src.cpp:299-327).  The driver's answers are inputs. */
module AirQuality {
  import opened Readings
  import opened Numerals
  import opened Events
  import opened Device

  const READ_MESSAGE: string := "Reading air quality (SGP30) sensor ..."
  const MEASURE_ERROR: string := "Failed to read air quality sensor."
  const BASELINE_ERROR: string := "Failed to get baseline readings"
  const SETUP_MESSAGE: string := "Setting up SGP30 sensor..."
  const BEGIN_ERROR: string := "SGP30 sensor failed to begin!"
  const SETUP_ERROR: string := "Failed to setup SGP30 sensor!"

  /** The pair `getIAQBaseline` writes back. */
  datatype Baseline = Baseline(eco2: U16, tvoc: U16)

  /** What the driver answers during one `read_sgp`: the outcome of
      `IAQmeasure`, of `IAQmeasureRaw` (asked only when the first succeeds),
      the four values they leave in the driver, and the baseline
      `getIAQBaseline` would return, if it succeeds. */
  datatype SgpOutcome = SgpOutcome(
    measureOk: bool,
    rawOk: bool,
    tvoc: U16,
    eco2: U16,
    rawH2: U16,
    rawEthanol: U16,
    baseline: Option<Baseline>)

  /** `IAQmeasure() && IAQmeasureRaw()` */
  predicate Measured(o: SgpOutcome)
  {
    o.measureOk && o.rawOk
  }

  /** The three serial-number words the driver reads during `begin`. */
  datatype SerialWords = SerialWords(w0: U16, w1: U16, w2: U16)

  /** `snprintf(buffer, size, ...)` keeps at most `size - 1` characters. */
  function Truncate(s: string, size: nat): (r: string)
    requires size >= 1
    ensures |r| < size && |r| <= |s|
    ensures r == s[..|r|]
    ensures |s| < size ==> r == s
  {
    if |s| < size then s else s[..size - 1]
  }

  /** `snprintf(sgp30_serial, 13, "%x%x%x", ...)`: the three words fit the
      13-byte buffer, so nothing is cut off. */
  function SerialString(w: SerialWords): (r: string)
    ensures r == Hex(w.w0) + Hex(w.w1) + Hex(w.w2)
    ensures 3 <= |r| <= 12
  {
    HexWordLength(w.w0);
    HexWordLength(w.w1);
    HexWordLength(w.w2);
    Truncate(Hex(w.w0) + Hex(w.w1) + Hex(w.w2), 13)
  }

  /** Unpadded words run together, so different serial numbers can print
      the same: 1,23,4 and 12,3,4 both give "1234". */
  lemma SerialAmbiguous()
    ensures SerialWords(0x1, 0x23, 0x4) != SerialWords(0x12, 0x3, 0x4)
    ensures SerialString(SerialWords(0x1, 0x23, 0x4)) == SerialString(SerialWords(0x12, 0x3, 0x4)) == "1234"
  {
  }

  /** `setup_sgp_sensor`, with `begin` the serial number when `begin()`
      succeeds.  Only the serial changes, and only on success. */
  function SetupSgp(s: DeviceState, begin: Option<SerialWords>): (r: Step)
    ensures r.state == s.(sgpSerial := r.state.sgpSerial)
    ensures begin.None? ==> r.state == s && Logged(Error, SETUP_ERROR) in r.trace
    ensures begin.Some? ==> r.state.sgpSerial == Hex(begin.value.w0) + Hex(begin.value.w1) + Hex(begin.value.w2)
    ensures Calls(r.trace) == if begin.Some? then [Begin, SoftReset] else [Begin]
    ensures Logged(Error, SETUP_ERROR) in r.trace <==> begin.None?
    ensures Logged(Error, BEGIN_ERROR) in r.trace <==> begin.None?
  {
    var head := [Logged(Info, SETUP_MESSAGE), Called(Begin)];
    match begin
    case None =>
      var trace := head + [Logged(Error, BEGIN_ERROR), Logged(Error, SETUP_ERROR)];
      assert trace == [Logged(Info, SETUP_MESSAGE)] + ([Called(Begin)] + ([Logged(Error, BEGIN_ERROR)] + [Logged(Error, SETUP_ERROR)]));
      CallsCons(Logged(Error, BEGIN_ERROR), [Logged(Error, SETUP_ERROR)]);
      CallsCons(Logged(Error, SETUP_ERROR), []);
      CallsCons(Called(Begin), [Logged(Error, BEGIN_ERROR)] + [Logged(Error, SETUP_ERROR)]);
      Step(s, trace)
    case Some(words) =>
      var trace := head + [Called(SoftReset)];
      assert trace == [Logged(Info, SETUP_MESSAGE)] + ([Called(Begin)] + [Called(SoftReset)]);
      CallsCons(Called(SoftReset), []);
      CallsCons(Called(Begin), [Called(SoftReset)]);
      CallsCons(Logged(Info, SETUP_MESSAGE), [Called(Begin)] + [Called(SoftReset)]);
      Step(s.(sgpSerial := SerialString(words)), trace)
  }

  /** `getAbsoluteHumidity(t, h)`: NaN in, NaN out; numbers go through the
      formula, which the model does not look inside. */
  function AbsoluteHumidity(nums: Numerics, temperature: Reading, humidity: Reading): (r: Reading)
    ensures r.NaN? <==> temperature.NaN? || humidity.NaN?
  {
    if temperature.Val? && humidity.Val? then Val(nums.absoluteHumidity(temperature.v, humidity.v)) else NaN
  }

  function BaselineMessage(b: Baseline): string
  {
    "Baseline values: eCO2: 0x" + Hex(b.eco2) + " & TVOC: 0x" + Hex(b.tvoc)
  }

  /** The first part of `read_sgp`'s trace: the compensation, then the two
      measurements, the second asked for only when the first succeeds. */
  function MeasureTrace(compensation: Reading, measureOk: bool): seq<Event>
  {
    [Logged(Debug, READ_MESSAGE), Called(SetCompensation(compensation)), Called(Measure)]
    + (if measureOk then [Called(MeasureRaw)] else [])
  }

  /** The rest of the trace: the measurement error, or the baseline fetch and
      its report when `fetch` says the counter came round. */
  function OutcomeTrace(o: SgpOutcome, fetch: bool): seq<Event>
  {
    if !Measured(o) then [Logged(Error, MEASURE_ERROR)]
    else if fetch then
      [Called(GetBaseline),
       match o.baseline
         case None => Logged(Error, BASELINE_ERROR)
         case Some(b) => Logged(Debug, BaselineMessage(b))]
    else []
  }

  lemma MeasureCalls(compensation: Reading, measureOk: bool)
    ensures Calls(MeasureTrace(compensation, measureOk))
         == [SetCompensation(compensation), Measure] + (if measureOk then [MeasureRaw] else [])
  {
    var raw := if measureOk then [Called(MeasureRaw)] else [];
    assert MeasureTrace(compensation, measureOk)
        == [Logged(Debug, READ_MESSAGE)] + ([Called(SetCompensation(compensation))] + ([Called(Measure)] + raw));
    CallsCons(Called(Measure), raw);
    CallsCons(Called(SetCompensation(compensation)), [Called(Measure)] + raw);
    CallsCons(Logged(Debug, READ_MESSAGE), [Called(SetCompensation(compensation))] + ([Called(Measure)] + raw));
    if measureOk { CallsCons(Called(MeasureRaw), []); }
  }

  lemma OutcomeCalls(o: SgpOutcome, fetch: bool)
    ensures Calls(OutcomeTrace(o, fetch)) == if Measured(o) && fetch then [GetBaseline] else []
  {
  }

  /** `read_sgp`.  The four air-quality fields change together, only when
      both measurements succeed; each success advances the counter, and the
      thirtieth resets it and asks for the baseline, whose failure undoes
      nothing. */
  function ReadSgp(nums: Numerics, s: DeviceState, o: SgpOutcome): (r: Step)
    ensures Measured(o) ==>
      && r.state.tvoc == o.tvoc && r.state.co2 == o.eco2
      && r.state.h2 == o.rawH2 && r.state.ethanol == o.rawEthanol
    ensures !Measured(o) ==> r.state == s && Logged(Error, MEASURE_ERROR) in r.trace
    ensures Logged(Error, MEASURE_ERROR) in r.trace <==> !Measured(o)
    ensures Logged(Error, BASELINE_ERROR) in r.trace
        <==> Measured(o) && Wrap32(s.sgpCounter + 1) == BASELINE_INTERVAL && o.baseline.None?
    ensures r.state == s.(tvoc := r.state.tvoc, co2 := r.state.co2, h2 := r.state.h2,
                          ethanol := r.state.ethanol, sgpCounter := r.state.sgpCounter)
    ensures Measured(o) && Valid(s) ==> r.state.sgpCounter == (s.sgpCounter + 1) % BASELINE_INTERVAL
    ensures Valid(s) ==> Valid(r.state)
  {
    var counter := Wrap32(s.sgpCounter + 1);
    var fetch := counter == BASELINE_INTERVAL;
    var head := MeasureTrace(AbsoluteHumidity(nums, s.temperature, s.humidity), o.measureOk);
    var tail := OutcomeTrace(o, fetch);
    assert !Measured(o) ==> (head + tail)[|head|] == Logged(Error, MEASURE_ERROR);
    var state :=
      if !Measured(o) then s
      else s.(tvoc := o.tvoc, co2 := o.eco2, h2 := o.rawH2, ethanol := o.rawEthanol,
              sgpCounter := if fetch then 0 else counter);
    Step(state, head + tail)
  }

  /** The driver calls `read_sgp` makes: the compensation, the measurement,
      the raw measurement only after a successful measurement, and the
      baseline only when a success brings the counter to thirty. */
  lemma SgpCalls(nums: Numerics, s: DeviceState, o: SgpOutcome)
    ensures Calls(ReadSgp(nums, s, o).trace) ==
      [SetCompensation(AbsoluteHumidity(nums, s.temperature, s.humidity)), Measure]
      + (if o.measureOk then [MeasureRaw] else [])
      + (if Measured(o) && Wrap32(s.sgpCounter + 1) == BASELINE_INTERVAL then [GetBaseline] else [])
  {
    var counter := Wrap32(s.sgpCounter + 1);
    var head := MeasureTrace(AbsoluteHumidity(nums, s.temperature, s.humidity), o.measureOk);
    var tail := OutcomeTrace(o, counter == BASELINE_INTERVAL);
    assert ReadSgp(nums, s, o).trace == head + tail;
    MeasureCalls(AbsoluteHumidity(nums, s.temperature, s.humidity), o.measureOk);
    OutcomeCalls(o, counter == BASELINE_INTERVAL);
    CallsAppend(head, tail);
  }

  /** Whether the baseline can be fetched has no bearing on the state. */
  lemma BaselineFailureUndoesNothing(nums: Numerics, s: DeviceState, o: SgpOutcome, other: Option<Baseline>)
    ensures ReadSgp(nums, s, o).state == ReadSgp(nums, s, o.(baseline := other)).state
  {
  }

  /** `read_sgp` run once per outcome, in order. */
  function SgpRun(nums: Numerics, s: DeviceState, os: seq<SgpOutcome>): (r: Step)
    decreases |os|
  {
    if os == [] then Step(s, [])
    else
      var first := ReadSgp(nums, s, os[0]);
      var rest := SgpRun(nums, first.state, os[1..]);
      Step(rest.state, first.trace + rest.trace)
  }

  /** Number of outcomes in which both measurements succeed. */
  function Successes(os: seq<SgpOutcome>): (n: nat)
    ensures n <= |os|
  {
    if os == [] then 0 else (if Measured(os[0]) then 1 else 0) + Successes(os[1..])
  }

  /** One `read_sgp` from a valid counter `c`, with `m` = 1 for a successful
      measurement and 0 otherwise: `c + m` is thirty times the number of
      baseline fetches plus the new counter, which stays valid. */
  lemma BaselineStep(nums: Numerics, s: DeviceState, o: SgpOutcome)
    requires Valid(s)
    ensures var r := ReadSgp(nums, s, o);
      s.sgpCounter + (if Measured(o) then 1 else 0)
      == BASELINE_INTERVAL * Count(Calls(r.trace), GetBaseline) + r.state.sgpCounter
  {
    SgpCalls(nums, s, o);
    var pre := [SetCompensation(AbsoluteHumidity(nums, s.temperature, s.humidity)), Measure]
      + (if o.measureOk then [MeasureRaw] else []);
    var fetched := Measured(o) && s.sgpCounter + 1 == BASELINE_INTERVAL;
    var post: seq<Call> := if fetched then [GetBaseline] else [];
    CountAppend(pre, post, GetBaseline);
    CountAbsent(pre, GetBaseline);
    assert Count(post, GetBaseline) == if fetched then 1 else 0;
    if !Measured(o) {
      assert ReadSgp(nums, s, o).state == s;
    }
  }

  /** The baseline fetches of a run are those of its first step plus those of
      the rest. */
  lemma RunFetches(nums: Numerics, s: DeviceState, os: seq<SgpOutcome>)
    requires os != []
    ensures var first := ReadSgp(nums, s, os[0]);
      Count(Calls(SgpRun(nums, s, os).trace), GetBaseline)
      == Count(Calls(first.trace), GetBaseline)
       + Count(Calls(SgpRun(nums, first.state, os[1..]).trace), GetBaseline)
  {
    var first := ReadSgp(nums, s, os[0]);
    var rest := SgpRun(nums, first.state, os[1..]);
    assert SgpRun(nums, s, os).trace == first.trace + rest.trace;
    CallsAppend(first.trace, rest.trace);
    CountAppend(Calls(first.trace), Calls(rest.trace), GetBaseline);
  }

  /** Over a run from a valid counter `c` with `n` successes, `c + n` is
      thirty times the number of baseline fetches plus the final counter,
      which stays valid. */
  lemma {:induction false} RunBalance(nums: Numerics, s: DeviceState, os: seq<SgpOutcome>)
    requires Valid(s)
    ensures var r := SgpRun(nums, s, os);
      && Valid(r.state)
      && s.sgpCounter + Successes(os)
         == BASELINE_INTERVAL * Count(Calls(r.trace), GetBaseline) + r.state.sgpCounter
    decreases |os|
  {
    if os != [] {
      var first := ReadSgp(nums, s, os[0]);
      RunFetches(nums, s, os);
      BaselineStep(nums, s, os[0]);
      RunBalance(nums, first.state, os[1..]);
      assert Successes(os) == (if Measured(os[0]) then 1 else 0) + Successes(os[1..]);
      assert SgpRun(nums, s, os).state == SgpRun(nums, first.state, os[1..]).state;
    } else {
      assert SgpRun(nums, s, os) == Step(s, []);
    }
  }

  lemma DivModUnique(n: nat, q: nat, r: nat)
    requires r < BASELINE_INTERVAL && n == BASELINE_INTERVAL * q + r
    ensures q == n / BASELINE_INTERVAL && r == n % BASELINE_INTERVAL
  {
  }

  /** From a valid counter `c`, after `n` successful measurements the counter
      is `(c + n) mod 30` and the baseline has been asked for `(c + n) / 30`
      times: once per thirty successes, failed measurements not counting. */
  lemma BaselineCadence(nums: Numerics, s: DeviceState, os: seq<SgpOutcome>)
    requires Valid(s)
    ensures var r := SgpRun(nums, s, os);
      && r.state.sgpCounter == (s.sgpCounter + Successes(os)) % BASELINE_INTERVAL
      && Count(Calls(r.trace), GetBaseline) == (s.sgpCounter + Successes(os)) / BASELINE_INTERVAL
  {
    var r := SgpRun(nums, s, os);
    var n := s.sgpCounter + Successes(os);
    var fetches := Count(Calls(r.trace), GetBaseline);
    RunBalance(nums, s, os);
    DivModUnique(n, fetches, r.state.sgpCounter);
  }
}

=== FILE: device.dfy ===
/** The firmware's global state and build-time configuration
    (src/src.cpp:43-47 and the constants of `config.h`). */
module Device {
  import opened Readings
  import opened Events

  /** Successful air-quality measurements between two baseline harvests. */
  const BASELINE_INTERVAL: nat := 30

  /** The `config.h` / `version.h` constants the core reads. */
  datatype Config = Config(
    readInterval: int,        // READ_INTERVAL, milliseconds
    tryCount: int,            // READ_TRY_COUNT
    humidityOffset: real,     // HUMIDITY_CORRECTION_OFFSET
    temperatureOffset: real,  // TEMPERATURE_CORRECTION_OFFSET
    debugMode: int,           // DEBUG_MODE
    namespace: string,        // PROM_NAMESPACE
    version: string,          // VERSION
    board: string,            // BOARD_NAME
    dhtName: string)          // DHT_NAME

  /** Floating-point routines the model does not look inside:
      the DHT library's `computeHeatIndex(t, h, false)`, `getAbsoluteHumidity(t, h)`
      on numbers, and `%f`. */
  datatype Numerics = Numerics(
    heatIndex: (real, real) -> real,
    absoluteHumidity: (real, real) -> real,
    formatFloat: real -> string)

  /** The globals the sampling pipeline owns. */
  datatype DeviceState = DeviceState(
    humidity: Reading,
    temperature: Reading,
    heatIndex: Reading,
    tvoc: U16,
    co2: U16,
    h2: U16,
    ethanol: U16,
    sgpCounter: U32,
    previousReadTime: U32,
    sgpSerial: string)

  /** Static storage before `setup` runs: every number zero, the serial empty. */
  const PowerOn: DeviceState :=
    DeviceState(Val(0.0), Val(0.0), Val(0.0), 0, 0, 0, 0, 0, 0, "")

  /** The baseline counter stays below the harvest interval. */
  predicate Valid(s: DeviceState)
  {
    s.sgpCounter < BASELINE_INTERVAL
  }

  /** A state change together with what happened on the way. */
  datatype Step = Step(state: DeviceState, trace: seq<Event>)
}

=== FILE: dht.dfy ===
/** The DHT adapters: `read_humidity_sensor`, `read_temperature_sensor`
    (src/src.cpp:255-281) and `read_heat_index` (src/src.cpp:283-289). */
module Dht {
  import opened Readings
  import opened Events
  import opened Retry
  import opened Device

  const HUMIDITY_MESSAGE: string := "Reading humidity sensor ..."
  const HUMIDITY_ERROR: string := "Failed to read humidity sensor."
  const TEMPERATURE_MESSAGE: string := "Reading temperature sensor ..."
  const TEMPERATURE_ERROR: string := "Failed to read temperature sensor."

  /** The correction `if (x) x += offset;`: the offset is added to every
      value C treats as true, which includes NaN (it stays NaN); an exact
      zero is left as it is. */
  function Calibrate(value: Reading, offset: real): (r: Reading)
    ensures r.NaN? <==> value.NaN?
    ensures value.Val? && value.v != 0.0 ==> r == Val(value.v + offset)
    ensures value == Val(0.0) ==> r == Val(0.0)
  {
    if Truthy(value) then Plus(value, offset) else value
  }

  datatype Adjusted = Adjusted(value: Reading, trace: seq<Event>)

  /** One adapter: retry the driver call, then correct the stored value,
      logging `failure` on the branch the truthiness test rejects. */
  function ReadCalibrated(produced: seq<Reading>, tryCount: int, call: Call, prior: Reading,
                          offset: real, announce: string, failure: string): (r: Adjusted)
    requires Tries(tryCount) <= |produced|
    ensures var raw := ReadSensor(produced, tryCount, call, prior);
      && r.value == Calibrate(raw.value, offset)
      && (Logged(Error, failure) in r.trace <==> raw.value == Val(0.0))
      && Calls(r.trace) == seq(raw.calls, _ => call)
    ensures |r.trace| > 0 && r.trace[0] == Logged(Debug, announce)
  {
    var raw := ReadSensor(produced, tryCount, call, prior);
    var tail := if Truthy(raw.value) then [] else [Logged(Error, failure)];
    var trace := [Logged(Debug, announce)] + raw.trace + tail;
    CallsAppend([Logged(Debug, announce)], raw.trace);
    CallsAppend([Logged(Debug, announce)] + raw.trace, tail);
    assert Calls(tail) == [];
    assert Calls([Logged(Debug, announce)]) == [];
    Adjusted(Calibrate(raw.value, offset), trace)
  }

  /** `read_humidity_sensor`: only the humidity changes. */
  function ReadHumidity(cfg: Config, s: DeviceState, produced: seq<Reading>): (r: Step)
    requires Tries(cfg.tryCount) <= |produced|
    ensures r.state == s.(humidity := r.state.humidity)
    ensures var a := ReadCalibrated(produced, cfg.tryCount, Call.ReadHumidity, s.humidity,
                                    cfg.humidityOffset, HUMIDITY_MESSAGE, HUMIDITY_ERROR);
      r.state.humidity == a.value && r.trace == a.trace
  {
    var a := ReadCalibrated(produced, cfg.tryCount, Call.ReadHumidity, s.humidity,
                            cfg.humidityOffset, HUMIDITY_MESSAGE, HUMIDITY_ERROR);
    Step(s.(humidity := a.value), a.trace)
  }

  /** `read_temperature_sensor`: only the temperature changes. */
  function ReadTemperature(cfg: Config, s: DeviceState, produced: seq<Reading>): (r: Step)
    requires Tries(cfg.tryCount) <= |produced|
    ensures r.state == s.(temperature := r.state.temperature)
    ensures var a := ReadCalibrated(produced, cfg.tryCount, Call.ReadTemperature, s.temperature,
                                    cfg.temperatureOffset, TEMPERATURE_MESSAGE, TEMPERATURE_ERROR);
      r.state.temperature == a.value && r.trace == a.trace
  {
    var a := ReadCalibrated(produced, cfg.tryCount, Call.ReadTemperature, s.temperature,
                            cfg.temperatureOffset, TEMPERATURE_MESSAGE, TEMPERATURE_ERROR);
    Step(s.(temperature := a.value), a.trace)
  }

  /** `read_heat_index`: NaN unless both inputs are numbers, and then the
      library's value for (temperature, humidity) in that argument order. */
  function ReadHeatIndex(nums: Numerics, s: DeviceState): (r: Step)
    ensures r.state == s.(heatIndex := r.state.heatIndex)
    ensures r.state.heatIndex.NaN? <==> s.humidity.NaN? || s.temperature.NaN?
    ensures r.state.heatIndex.Val? ==> r.state.heatIndex.v == nums.heatIndex(s.temperature.v, s.humidity.v)
    ensures Calls(r.trace) == if r.state.heatIndex.Val? then [ComputeHeatIndex] else []
  {
    if s.humidity.Val? && s.temperature.Val? then
      assert Calls([Called(ComputeHeatIndex)]) == [ComputeHeatIndex];
      Step(s.(heatIndex := Val(nums.heatIndex(s.temperature.v, s.humidity.v))), [Called(ComputeHeatIndex)])
    else
      Step(s.(heatIndex := NaN), [])
  }

  /** A sensor that answers NaN on every try ends up NaN after correction,
      and the adapter does not log its failure message. */
  lemma SilentOutage(produced: seq<Reading>, tryCount: int, call: Call, prior: Reading,
                     offset: real, announce: string, failure: string)
    requires 1 <= tryCount <= |produced|
    requires forall k :: 0 <= k < tryCount ==> produced[k].NaN?
    ensures var a := ReadCalibrated(produced, tryCount, call, prior, offset, announce, failure);
      a.value.NaN? && Logged(Error, failure) !in a.trace
  {
  }

  /** A first good answer of exactly zero is kept as zero and reported as a
      failure, although the sensor did answer. */
  lemma ZeroIsReportedAsFailure(produced: seq<Reading>, tryCount: int, call: Call, prior: Reading,
                                offset: real, announce: string, failure: string)
    requires 1 <= tryCount <= |produced|
    requires produced[0] == Val(0.0)
    ensures var a := ReadCalibrated(produced, tryCount, call, prior, offset, announce, failure);
      a.value == Val(0.0) && Logged(Error, failure) in a.trace
  {
  }

  /** With no tries allowed, the previous (already corrected) value is
      corrected a second time. */
  lemma NoTriesReappliesOffset(prior: real, offset: real, call: Call, announce: string, failure: string)
    requires prior != 0.0
    ensures ReadCalibrated([], 0, call, Val(prior), offset, announce, failure).value == Val(prior + offset)
  {
  }
}

=== FILE: events.dfy ===
/** What one step of the firmware does besides changing state: the calls it
    makes into the sensor drivers, the log records it writes, and the moment
    it stamps the sampling time.  Steps return these as an ordered trace. */
module Events {
  import opened Readings

  datatype Level = Debug | Info | Error

  /** A call into a driver whose outcome the model takes as an input. */
  datatype Call =
    | ReadHumidity
    | ReadTemperature
    | ComputeHeatIndex
    | SetCompensation(absoluteHumidity: Reading)
    | Measure
    | MeasureRaw
    | GetBaseline
    | Begin
    | SoftReset

  datatype Event =
    | Stamped(time: U32)
    | Called(call: Call)
    | Logged(level: Level, message: string)

  /** The driver calls of a trace, in order. */
  function Calls(trace: seq<Event>): (calls: seq<Call>)
    ensures |calls| <= |trace|
  {
    if trace == [] then []
    else (if trace[0].Called? then [trace[0].call] else []) + Calls(trace[1..])
  }

  lemma {:induction false} CallsAppend(a: seq<Event>, b: seq<Event>)
    ensures Calls(a + b) == Calls(a) + Calls(b)
  {
    if a != [] {
      assert (a + b)[1..] == a[1..] + b;
      CallsAppend(a[1..], b);
    } else {
      assert a + b == b;
    }
  }

  lemma CallsCons(e: Event, rest: seq<Event>)
    ensures Calls([e] + rest) == (if e.Called? then [e.call] else []) + Calls(rest)
  {
  }

  /** Number of occurrences of `c` among `calls`. */
  function Count(calls: seq<Call>, c: Call): (n: nat)
    ensures n <= |calls|
  {
    if calls == [] then 0
    else (if calls[0] == c then 1 else 0) + Count(calls[1..], c)
  }

  lemma {:induction false} CountAppend(a: seq<Call>, b: seq<Call>, c: Call)
    ensures Count(a + b, c) == Count(a, c) + Count(b, c)
  {
    if a != [] {
      assert (a + b)[1..] == a[1..] + b;
      CountAppend(a[1..], b, c);
    } else {
      assert a + b == b;
    }
  }

  lemma {:induction false} CountAbsent(calls: seq<Call>, c: Call)
    requires c !in calls
    ensures Count(calls, c) == 0
  {
    if calls != [] {
      assert calls[0] != c;
      assert forall k :: 0 <= k < |calls[1..]| ==> calls[1..][k] == calls[k + 1];
      CountAbsent(calls[1..], c);
    }
  }
}

=== FILE: exposition.dfy ===
/** The metrics handler `handle_http_metrics` (src/src.cpp:181-232): refresh
    the readings through the rate limiter, then answer 500 or fill the
    exposition template. */
module Exposition {
  import opened Readings
  import opened Numerals
  import opened Events
  import opened Device
  import opened Scheduler
  import Dht

  const CONTENT_TYPE: string := "text/plain; charset=utf-8"
  const SENSOR_ERROR: string := "Sensor error."

  datatype Response = Response(status: int, contentType: string, body: string)

  /** One line of the exposition text, without its newline. */
  datatype Line =
    | Comment(text: string)
    | Sample(name: string, labels: string, value: string)

  function Text(l: Line): string
  {
    match l
    case Comment(t) => "# " + t
    case Sample(n, labels, v) => n + labels + " " + v
  }

  /** The body: every line followed by a newline. */
  function Serialize(lines: seq<Line>): (body: string)
    ensures lines != [] ==> |body| > 0 && body[|body| - 1] == '\n'
  {
    if lines == [] then "" else
      Text(lines[0]) + "\n" + Serialize(lines[1..])
  }

  /** The HELP, TYPE and UNIT comment lines of a family. */
  function Family(name: string, help: string, unit: string): seq<Line>
  {
    [ Comment("HELP " + name + " " + help),
      Comment("TYPE " + name + " gauge"),
      Comment("UNIT " + name + " " + unit) ]
  }

  /** A family's comments followed by its one unlabelled sample. */
  function Gauge(name: string, help: string, unit: string, value: string): seq<Line>
  {
    Family(name, help, unit) + [Sample(name, "", value)]
  }

  /** The thirteen `snprintf` arguments after the template, in the order the
      call passes them (line 230): the counts go as tvoc, then co2. */
  function Arguments(cfg: Config, nums: Numerics, s: DeviceState): (args: seq<string>)
    requires s.humidity.Val? && s.temperature.Val? && s.heatIndex.Val?
    ensures |args| == 13
  {
    [ cfg.version, cfg.board, cfg.dhtName, "n/a", "SGP30", s.sgpSerial,
      nums.formatFloat(s.humidity.v), nums.formatFloat(s.temperature.v), nums.formatFloat(s.heatIndex.v),
      Decimal(s.tvoc), Decimal(s.co2), Decimal(s.h2), Decimal(s.ethanol) ]
  }

  /** A measurement family of the template: name suffix, help text, unit. */
  datatype Measurement = Measurement(suffix: string, help: string, unit: string)

  /** The seven measurement families of lines 194-221, in template order. */
  const MEASUREMENTS: seq<Measurement> := [
    Measurement("_air_humidity_percent", "Air humidity.", "%"),
    Measurement("_air_temperature_celsius", "Air temperature.", "\U{00B0}C"),
    Measurement("_air_heat_index_celsius", "Apparent air temperature, based on temperature and humidity.", "\U{00B0}C"),
    Measurement("_air_quality_eco2", "Equivalent calculated carbon-dioxide (eCO2).", "ppm"),
    Measurement("_air_quality_tvoc", "Total Volatile Organic Compound (TVOC).", "ppb\\t"),
    Measurement("_air_quality_h2", "Hydrogen.", "ppm"),
    Measurement("_air_quality_ethanol", "Ethanol.", "ppm")
  ]

  /** The identity part of the template (lines 185-193), filled from the
      first six arguments. */
  function Header(ns: string, args: seq<string>): (lines: seq<Line>)
    requires |args| >= 6
    ensures |lines| == 9
  {
    Family(ns + "_info", "Metadata about the device.", "")
    + [Sample(ns + "_info", "{version=\"" + args[0] + "\",board=\"" + args[1] + "\"}", "1")]
    + Family(ns + "_info", "Metadata about a sensor.", "")
    + [ Sample(ns + "_sensor", "{sensor=\"" + args[2] + "\",serial=\"" + args[3] + "\"}", "1"),
        Sample(ns + "_sensor", "{sensor=\"" + args[4] + "\",serial=\"" + args[5] + "\"}", "1") ]
  }

  /** One gauge per family, each taking the next value. */
  function Gauges(ns: string, families: seq<Measurement>, values: seq<string>): (lines: seq<Line>)
    requires |values| == |families|
    ensures |lines| == 4 * |families|
  {
    if families == [] then []
    else
      Gauge(ns + families[0].suffix, families[0].help, families[0].unit, values[0])
      + Gauges(ns, families[1..], values[1..])
  }

  /** The template of lines 184-221 with its thirteen conversions filled, in
      order, from `args`. */
  function Template(ns: string, args: seq<string>): (lines: seq<Line>)
    requires |args| == 13
    ensures |lines| == 37
  {
    Header(ns, args) + Gauges(ns, MEASUREMENTS, args[6..])
  }

  function MetricsLines(cfg: Config, nums: Numerics, s: DeviceState): seq<Line>
    requires s.humidity.Val? && s.temperature.Val? && s.heatIndex.Val?
  {
    Template(cfg.namespace, Arguments(cfg, nums, s))
  }

  /** What a scraper reads for a family: the value of its first sample. */
  function ValueOf(lines: seq<Line>, name: string): Option<string>
  {
    if lines == [] then None
    else if lines[0].Sample? && lines[0].name == name then Some(lines[0].value)
    else ValueOf(lines[1..], name)
  }

  /** The condition of line 224.  The four counters are converted to floating
      point for `isnan`, which can never be true of them. */
  predicate AnyNaN(s: DeviceState)
  {
    || s.humidity.NaN? || s.temperature.NaN? || s.heatIndex.NaN?
    || AsFloat(s.tvoc).NaN? || AsFloat(s.co2).NaN? || AsFloat(s.h2).NaN? || AsFloat(s.ethanol).NaN?
  }

  /** Lines 223-231 after the refresh: 500 "Sensor error." exactly when one of
      the three float readings is NaN, otherwise 200 with the filled
      template; never a partial body. */
  function MetricsResponse(cfg: Config, nums: Numerics, s: DeviceState): (r: Response)
    ensures r.status == 500 <==> s.humidity.NaN? || s.temperature.NaN? || s.heatIndex.NaN?
    ensures r.status == 500 ==> r.body == SENSOR_ERROR
    ensures r.status != 500 ==> r.status == 200
    ensures r.status == 200 ==>
      (s.humidity.Val? && s.temperature.Val? && s.heatIndex.Val?
       && r.body == Serialize(MetricsLines(cfg, nums, s)))
    ensures r.contentType == CONTENT_TYPE
  {
    if AnyNaN(s) then Response(500, CONTENT_TYPE, SENSOR_ERROR)
    else Response(200, CONTENT_TYPE, Serialize(MetricsLines(cfg, nums, s)))
  }

  datatype Exchange = Exchange(step: Step, response: Response)

  /** `handle_http_metrics`: an unforced `read_sensors`, then the answer for
      the resulting state. */
  function HandleMetrics(cfg: Config, nums: Numerics, s: DeviceState, now: U32, pass: Pass): (r: Exchange)
    requires Answers(cfg, pass)
    ensures r.step == ReadSensors(cfg, nums, s, now, false, pass)
    ensures r.response.status == 500 <==>
      r.step.state.humidity.NaN? || r.step.state.temperature.NaN? || r.step.state.heatIndex.NaN?
    ensures !Sampled(r.step, now) ==> r.response == MetricsResponse(cfg, nums, s)
    ensures r.response == MetricsResponse(cfg, nums, r.step.state)
    ensures r.response.status == 200 ==> r.response.body == Serialize(MetricsLines(cfg, nums, r.step.state))
  {
    var step := ReadSensors(cfg, nums, s, now, false, pass);
    Exchange(step, MetricsResponse(cfg, nums, step.state))
  }

  /** No sample of `lines` belongs to the family `name`. */
  predicate Absent(lines: seq<Line>, name: string)
  {
    forall k :: 0 <= k < |lines| ==> lines[k].Sample? ==> lines[k].name != name
  }

  lemma {:induction false} ValueOfAppend(a: seq<Line>, b: seq<Line>, name: string)
    requires Absent(a, name)
    ensures ValueOf(a + b, name) == ValueOf(b, name)
  {
    if a != [] {
      assert (a + b)[1..] == a[1..] + b;
      assert (a + b)[0] == a[0];
      ValueOfAppend(a[1..], b, name);
    } else {
      assert a + b == b;
    }
  }

  /** A scraper looking for a gauge family finds the gauge's own value. */
  lemma FindGauge(name: string, help: string, unit: string, value: string, after: seq<Line>)
    ensures ValueOf(Gauge(name, help, unit, value) + after, name) == Some(value)
  {
    var g := Gauge(name, help, unit, value);
    assert g + after == Family(name, help, unit) + ([Sample(name, "", value)] + after);
    ValueOfAppend(Family(name, help, unit), [Sample(name, "", value)] + after, name);
  }

  lemma DistinctNames(ns: string, a: string, b: string)
    requires a != b
    ensures ns + a != ns + b
  {
    assert (ns + a)[|ns|..] == a;
    assert (ns + b)[|ns|..] == b;
  }

  predicate DistinctSuffixes(families: seq<Measurement>)
  {
    forall i, j :: 0 <= i < j < |families| ==> families[i].suffix != families[j].suffix
  }

  /** In a run of gauges with distinct names, family `g` is found with value `g`. */
  lemma {:induction false} FindInGauges(ns: string, families: seq<Measurement>, values: seq<string>, g: nat)
    requires |values| == |families| && g < |families|
    requires DistinctSuffixes(families)
    ensures ValueOf(Gauges(ns, families, values), ns + families[g].suffix) == Some(values[g])
  {
    var first := Gauge(ns + families[0].suffix, families[0].help, families[0].unit, values[0]);
    var rest := Gauges(ns, families[1..], values[1..]);
    if g == 0 {
      FindGauge(ns + families[0].suffix, families[0].help, families[0].unit, values[0], rest);
    } else {
      var name := ns + families[g].suffix;
      DistinctNames(ns, families[0].suffix, families[g].suffix);
      assert Absent(first, name);
      ValueOfAppend(first, rest, name);
      assert families[1..][g - 1] == families[g];
      FindInGauges(ns, families[1..], values[1..], g - 1);
    }
  }

  /** The measurement families have distinct names, none of them the
      identity families'. */
  lemma MeasurementSuffixes(g: nat)
    requires g < |MEASUREMENTS|
    ensures DistinctSuffixes(MEASUREMENTS)
    ensures MEASUREMENTS[g].suffix != "_info" && MEASUREMENTS[g].suffix != "_sensor"
  {
  }

  /** The identity part holds no sample of any other family. */
  lemma HeaderAbsent(ns: string, args: seq<string>, suffix: string)
    requires |args| >= 6
    requires suffix != "_info" && suffix != "_sensor"
    ensures Absent(Header(ns, args), ns + suffix)
  {
    DistinctNames(ns, "_info", suffix);
    DistinctNames(ns, "_sensor", suffix);
  }

  /** In the filled template, the sample of measurement family `g` carries
      the `g`-th of the seven values following the six identity arguments. */
  lemma TemplateValue(ns: string, args: seq<string>, g: nat)
    requires |args| == 13 && g < 7
    ensures ValueOf(Template(ns, args), ns + MEASUREMENTS[g].suffix) == Some(args[6 + g])
  {
    var name := ns + MEASUREMENTS[g].suffix;
    var header := Header(ns, args);
    var gauges := Gauges(ns, MEASUREMENTS, args[6..]);
    MeasurementSuffixes(g);
    HeaderAbsent(ns, args, MEASUREMENTS[g].suffix);
    ValueOfAppend(header, gauges, name);
    FindInGauges(ns, MEASUREMENTS, args[6..], g);
  }

  /** Each family's sample carries the argument in the position the template
      gives it: humidity, temperature, heat index, then for the families named
      eCO2 and TVOC the tvoc and the co2 counts, as the argument order has it. */
  lemma ScrapedValues(cfg: Config, nums: Numerics, s: DeviceState)
    requires s.humidity.Val? && s.temperature.Val? && s.heatIndex.Val?
    ensures var lines := MetricsLines(cfg, nums, s);
      var ns := cfg.namespace;
      && ValueOf(lines, ns + "_air_humidity_percent") == Some(nums.formatFloat(s.humidity.v))
      && ValueOf(lines, ns + "_air_temperature_celsius") == Some(nums.formatFloat(s.temperature.v))
      && ValueOf(lines, ns + "_air_heat_index_celsius") == Some(nums.formatFloat(s.heatIndex.v))
      && ValueOf(lines, ns + "_air_quality_eco2") == Some(Decimal(s.tvoc))
      && ValueOf(lines, ns + "_air_quality_tvoc") == Some(Decimal(s.co2))
      && ValueOf(lines, ns + "_air_quality_h2") == Some(Decimal(s.h2))
      && ValueOf(lines, ns + "_air_quality_ethanol") == Some(Decimal(s.ethanol))
  {
    var ns := cfg.namespace;
    var args := Arguments(cfg, nums, s);
    assert MetricsLines(cfg, nums, s) == Template(ns, args);
    TemplateValue(ns, args, 0);
    TemplateValue(ns, args, 1);
    TemplateValue(ns, args, 2);
    TemplateValue(ns, args, 3);
    TemplateValue(ns, args, 4);
    TemplateValue(ns, args, 5);
    TemplateValue(ns, args, 6);
  }

  /** A humidity sensor that answers NaN on every try during a refreshing
      scrape: the humidity and the heat index become NaN, not stale values,
      and the scrape answers 500. */
  lemma HumidityOutageAnswers500(cfg: Config, nums: Numerics, s: DeviceState, now: U32, pass: Pass)
    requires Answers(cfg, pass) && cfg.tryCount >= 1
    requires forall k :: 0 <= k < cfg.tryCount ==> pass.humidity[k].NaN?
    requires Elapsed(now, s.previousReadTime) >= MinInterval(cfg)
    ensures var r := HandleMetrics(cfg, nums, s, now, pass);
      && r.step.state.humidity.NaN? && r.step.state.heatIndex.NaN?
      && r.response == Response(500, CONTENT_TYPE, SENSOR_ERROR)
  {
  }

  /** A humidity of exactly zero is logged as a failed read, yet kept and
      served: with the other readings good, the scrape answers 200. */
  lemma ZeroHumidityServed(cfg: Config, nums: Numerics, s: DeviceState, now: U32, pass: Pass, t: real)
    requires Answers(cfg, pass) && cfg.tryCount >= 1
    requires pass.humidity[0] == Val(0.0) && pass.temperature[0] == Val(t)
    requires Elapsed(now, s.previousReadTime) >= MinInterval(cfg)
    ensures var r := HandleMetrics(cfg, nums, s, now, pass);
      && r.step.state.humidity == Val(0.0)
      && Logged(Error, Dht.HUMIDITY_ERROR) in r.step.trace
      && r.response.status == 200
  {
  }
}

=== FILE: http_methods.dfy ===
/** `get_http_method_name` (src/src.cpp:351-378): the name of a request
    method for the request log, written into a 16-byte buffer. */
module HttpMethods {
  import opened Readings

  /** The web server's request methods; `Any` is the wildcard value. */
  datatype HttpMethod = Any | Get | Head | Post | Put | Patch | Delete | Options

  const NAME_BUFFER: nat := 16

  function MethodName(m: HttpMethod): (name: string)
    ensures name == "UNKNOWN" <==> m == Any
    ensures |name| < NAME_BUFFER
  {
    match m
    case Get => "GET"
    case Head => "HEAD"
    case Post => "POST"
    case Put => "PUT"
    case Patch => "PATCH"
    case Delete => "DELETE"
    case Options => "OPTIONS"
    case Any => "UNKNOWN"
  }

  /** The method a logged name stands for; `None` for "UNKNOWN" and anything else. */
  function MethodOfName(name: string): (m: Option<HttpMethod>)
    ensures m.Some? ==> m.value != Any
  {
    if name == "GET" then Some(Get)
    else if name == "HEAD" then Some(Head)
    else if name == "POST" then Some(Post)
    else if name == "PUT" then Some(Put)
    else if name == "PATCH" then Some(Patch)
    else if name == "DELETE" then Some(Delete)
    else if name == "OPTIONS" then Some(Options)
    else None
  }

  /** Every named method is logged under a name that identifies it. */
  lemma NameRoundTrip(m: HttpMethod)
    ensures MethodOfName(MethodName(m)) == if m == Any then None else Some(m)
  {
  }

  /** Distinct named methods get distinct names. */
  lemma NamesDistinct(m1: HttpMethod, m2: HttpMethod)
    requires MethodName(m1) == MethodName(m2)
    ensures m1 == m2
  {
  }
}

=== FILE: logging.dfy ===
/** The log sink's level filter and level tag (src/src.cpp `log`).  The
    timestamp and the formatting of the record are not modelled. */
module Logging {
  import opened Readings
  import opened Events

  /** A record is written unless it is a debug record and the build's
      debug flag is zero. */
  predicate Emitted(debugMode: int, level: Level)
  {
    !(debugMode == 0 && level == Debug)
  }

  function Tag(level: Level): (t: string)
    ensures 4 <= |t| <= 5
  {
    match level
    case Debug => "DEBUG"
    case Info => "INFO"
    case Error => "ERROR"
  }

  /** The inverse of `Tag`. */
  function LevelOfTag(t: string): Option<Level>
  {
    if t == "DEBUG" then Some(Debug)
    else if t == "INFO" then Some(Info)
    else if t == "ERROR" then Some(Error)
    else None
  }

  lemma TagRoundTrip(level: Level)
    ensures LevelOfTag(Tag(level)) == Some(level)
  {
  }

  /** The tag as printed by `%-5s`: left-justified in a field of five. */
  function PaddedTag(level: Level): (t: string)
    ensures |t| == 5
    ensures t[..|Tag(level)|] == Tag(level)
    ensures forall k :: |Tag(level)| <= k < 5 ==> t[k] == ' '
  {
    Tag(level) + seq(5 - |Tag(level)|, _ => ' ')
  }

  datatype Record = Record(tag: string, message: string)

  /** The records that reach the serial line for a trace of events. */
  function Sink(debugMode: int, trace: seq<Event>): (out: seq<Record>)
    ensures |out| <= |trace|
    ensures debugMode == 0 ==> forall k :: 0 <= k < |out| ==> out[k].tag != "DEBUG"
    ensures forall k :: 0 <= k < |out| ==> LevelOfTag(out[k].tag).Some?
  {
    if trace == [] then []
    else
      var head :=
        if trace[0].Logged? && Emitted(debugMode, trace[0].level)
        then [Record(Tag(trace[0].level), trace[0].message)]
        else [];
      head + Sink(debugMode, trace[1..])
  }

  /** A logged event reaches the sink exactly when its level passes the filter. */
  lemma {:induction false} SinkKeeps(debugMode: int, trace: seq<Event>, level: Level, message: string)
    ensures Record(Tag(level), message) in Sink(debugMode, trace)
        <==> Logged(level, message) in trace && Emitted(debugMode, level)
  {
    if trace != [] {
      SinkKeeps(debugMode, trace[1..], level, message);
      if trace[0].Logged? {
        TagRoundTrip(level);
        TagRoundTrip(trace[0].level);
      }
    }
  }
}

=== FILE: numerals.dfy ===
/** Unsigned numerals without padding, as printed by `%x`, `%d` and
    Arduino's `String(value, HEX)`, and their parsers. */
module Numerals {
  import opened Readings

  type Base = b: int | 2 <= b <= 16 witness 10

  lemma DivMod(n: nat, base: Base)
    ensures n >= base ==> 1 <= n / base < n
    ensures 0 <= n % base < base
    ensures n == (n / base) * base + n % base
  {
  }

  /** Lower-case digit for a value below sixteen. */
  function Digit(d: nat): char
    requires d < 16
  {
    "0123456789abcdef"[d]
  }

  /** The value of a lower-case digit, if `c` is one for the given base. */
  function DigitValue(c: char, base: Base): (r: Option<nat>)
    ensures r.Some? ==> r.value < base
  {
    if '0' <= c <= '9' && (c as int - '0' as int) < base then Some(c as int - '0' as int)
    else if 'a' <= c <= 'f' && (c as int - 'a' as int) + 10 < base then Some(c as int - 'a' as int + 10)
    else None
  }

  lemma DigitValueOfDigit(d: nat, base: Base)
    requires d < base
    ensures DigitValue(Digit(d), base) == Some(d)
  {
  }

  /** A numeral of the base: non-empty, digits only, no leading zero. */
  predicate Canonical(s: string, base: Base)
  {
    && 1 <= |s|
    && (|s| > 1 ==> s[0] != '0')
    && forall k :: 0 <= k < |s| ==> DigitValue(s[k], base).Some?
  }

  /** The numeral of `n` in `base`, most significant digit first, with no
      leading zeros (zero itself is the single digit "0"). */
  function ToBase(n: nat, base: Base): (s: string)
    ensures Canonical(s, base)
    decreases n
  {
    if n < base then
      DigitValueOfDigit(n, base);
      [Digit(n)]
    else
      DivMod(n, base);
      DigitValueOfDigit(n % base, base);
      var high := ToBase(n / base, base);
      assert high[0] != '0' by {
        if |high| == 1 { DigitValueOfDigit(n / base, base); }
      }
      high + [Digit(n % base)]
  }

  /** Parses a non-empty numeral; `None` for the empty string or a character
      that is not a digit of the base. */
  function FromBase(s: string, base: Base): (r: Option<nat>)
    decreases |s|
  {
    if |s| == 0 then None
    else
      var last := DigitValue(s[|s| - 1], base);
      if last.None? then None
      else if |s| == 1 then last
      else
        match FromBase(s[..|s| - 1], base)
        case None => None
        case Some(high) => Some(high * base + last.value)
  }

  /** Printing then parsing gives the number back. */
  lemma {:induction false} RoundTrip(n: nat, base: Base)
    ensures FromBase(ToBase(n, base), base) == Some(n)
    decreases n
  {
    if n < base {
      DigitValueOfDigit(n, base);
    } else {
      DivMod(n, base);
      DigitValueOfDigit(n % base, base);
      var s := ToBase(n, base);
      assert s[..|s| - 1] == ToBase(n / base, base);
      assert s[|s| - 1] == Digit(n % base);
      RoundTrip(n / base, base);
    }
  }

  /** `%x` and `String(value, HEX)` */
  function Hex(n: nat): string { ToBase(n, 16) }

  /** `%d` */
  function Decimal(n: nat): string { ToBase(n, 10) }

  /** A number below sixteen to the power `k` prints in at most `k` hex digits. */
  lemma {:induction false} HexLength(n: nat, k: nat)
    requires 1 <= k
    ensures n < Pow16(k) ==> |Hex(n)| <= k
    decreases k
  {
    if n >= 16 && n < Pow16(k) {
      DivMod(n, 16);
      assert k > 1;
      HexLength(n / 16, k - 1);
    }
  }

  function Pow16(k: nat): nat
  {
    if k == 0 then 1 else 16 * Pow16(k - 1)
  }

  /** A 16-bit word prints as one to four hex digits. */
  lemma HexWordLength(w: U16)
    ensures 1 <= |Hex(w)| <= 4
  {
    assert Pow16(4) == TWO_16;
    HexLength(w, 4);
  }
}

=== FILE: readings.dfy ===
/** Scalar vocabulary shared by the whole model: fixed-width unsigned integers,
    32-bit wrap-around, optional values and the NaN-carrying float reading. */
module Readings {

  const TWO_16: int := 0x1_0000
  const TWO_32: int := 0x1_0000_0000

  /** C `uint16_t` */
  type U16 = x: int | 0 <= x < TWO_16
  /** C `uint32_t` */
  type U32 = x: int | 0 <= x < TWO_32

  /** Reduction of an integer result into `uint32_t`, as C does for unsigned
      arithmetic (subtraction that goes below zero wraps around). */
  function Wrap32(x: int): (r: U32)
    ensures (x - r) % TWO_32 == 0
    ensures 0 <= x < TWO_32 ==> r == x
  {
    x % TWO_32
  }

  datatype Option<+T> = None | Some(value: T)

  /** A `float` as the firmware uses it: either NaN (the drivers' failure
      sentinel) or a number.  Rounding is not modelled. */
  datatype Reading = NaN | Val(v: real)

  /** The C truth value of a float in `if (x)`: every value except zero is
      true, and NaN compares unequal to zero, so NaN is true as well. */
  predicate Truthy(r: Reading)
  {
    r.NaN? || r.v != 0.0
  }

  /** Float addition `x += offset`: NaN absorbs the offset. */
  function Plus(r: Reading, offset: real): (s: Reading)
    ensures s.NaN? <==> r.NaN?
    ensures s.Val? ==> s.v == r.v + offset
  {
    match r
    case NaN => NaN
    case Val(x) => Val(x + offset)
  }

  /** The implicit conversion of a `uint16_t` to a floating-point argument, as
      happens when it is passed to `isnan`: the result is always a number. */
  function AsFloat(x: U16): (r: Reading)
    ensures r.Val? && r.v >= 0.0
  {
    Val(x as real)
  }
}

=== FILE: retry.dfy ===
/** `read_sensor` (src/src.cpp:329-340): bounded retry of a float-producing
    driver call, stopping at the first answer that is not NaN.  The producer
    is the sequence of answers it would give, one per call. */
module Retry {
  import opened Readings
  import opened Events

  const RETRY_MESSAGE: string := "Failed to read sensor."

  /** How many iterations `for (int i = 0; i < count; i++)` runs at most. */
  function Tries(tryCount: int): (n: nat)
    ensures tryCount >= 0 ==> n == tryCount
    ensures tryCount < 0 ==> n == 0
  {
    if tryCount < 0 then 0 else tryCount
  }

  /** What `read_sensor` leaves behind: the float stored through `value`,
      its return value, how often it called the producer, and its trace. */
  datatype SensorRead = SensorRead(value: Reading, success: bool, calls: nat, trace: seq<Event>)

  /** The loop from iteration `i` on, with `current` stored in `*value`. */
  function ReadFrom(produced: seq<Reading>, tries: nat, call: Call, i: nat, current: Reading): (r: SensorRead)
    requires i <= tries <= |produced|
    ensures i <= r.calls <= tries
    ensures i < tries ==> (r.success <==> r.value.Val?)
    ensures r.calls == i ==> r.value == current
    ensures r.calls > i ==> r.value == produced[r.calls - 1]
    ensures forall k :: i <= k && k + 1 < r.calls ==> produced[k].NaN?
    ensures !r.success ==> r.calls == tries && forall k :: i <= k < tries ==> produced[k].NaN?
    ensures Calls(r.trace) == seq(r.calls - i, _ => call)
    ensures forall e :: e in r.trace ==> e == Called(call) || e == Logged(Debug, RETRY_MESSAGE)
    decreases tries - i
  {
    if i == tries then SensorRead(current, false, i, [])
    else if produced[i].Val? then
      assert Calls([Called(call)]) == [call];
      SensorRead(produced[i], true, i + 1, [Called(call)])
    else
      var rest := ReadFrom(produced, tries, call, i + 1, produced[i]);
      var head := [Called(call), Logged(Debug, RETRY_MESSAGE)];
      CallsAppend(head, rest.trace);
      assert Calls(head) == [call];
      SensorRead(rest.value, rest.success, rest.calls, head + rest.trace)
  }

  /** `read_sensor(function, value)` with `prior` the float previously
      stored through `value`; `produced` lists the producer's answers. */
  function ReadSensor(produced: seq<Reading>, tryCount: int, call: Call, prior: Reading): (r: SensorRead)
    requires Tries(tryCount) <= |produced|
    ensures r.calls <= Tries(tryCount)
    ensures Tries(tryCount) > 0 ==> (r.success <==> r.value.Val?)
    ensures r.success ==> 1 <= r.calls && r.value == produced[r.calls - 1]
    ensures forall k :: 0 <= k && k + 1 < r.calls ==> produced[k].NaN?
    ensures !r.success ==> r.calls == Tries(tryCount) && forall k :: 0 <= k < r.calls ==> produced[k].NaN?
    ensures !r.success ==> r.value == (if r.calls == 0 then prior else produced[r.calls - 1])
    ensures Calls(r.trace) == seq(r.calls, _ => call)
    ensures forall e :: e in r.trace ==> e == Called(call) || e == Logged(Debug, RETRY_MESSAGE)
  {
    ReadFrom(produced, Tries(tryCount), call, 0, prior)
  }

  /** The same loop written as the firmware writes it, with `break`; its
      invariants state what the iterations so far have seen, and the
      contract of `ReadSensor` pins down the rest. */
  method ReadSensorLoop(produced: seq<Reading>, tryCount: int, call: Call, prior: Reading)
    returns (value: Reading, success: bool, calls: nat)
    requires Tries(tryCount) <= |produced|
    ensures var r := ReadSensor(produced, tryCount, call, prior);
      value == r.value && success == r.success && calls == r.calls
  {
    value := prior;
    success := false;
    calls := 0;
    var i := 0;
    while i < tryCount
      invariant 0 <= i <= Tries(tryCount)
      invariant calls == i && !success
      invariant forall k :: 0 <= k < i ==> produced[k].NaN?
      invariant value == if i == 0 then prior else produced[i - 1]
    {
      value := produced[i];
      calls := calls + 1;
      if value.Val? {
        success := true;
        break;
      }
      i := i + 1;
    }
  }
}

=== FILE: scheduler.dfy ===
/** `read_sensors` (src/src.cpp:239-253): the rate limiter in front of one
    sampling pass, and the start-up sequence that forces the first pass
    (src/src.cpp:49-58). */
module Scheduler {
  import opened Readings
  import opened Events
  import opened Retry
  import opened Device
  import Dht
  import opened AirQuality

  const RECENT_MESSAGE: string := "Sensors were recently read, will not read again yet."

  /** The driver answers one sampling pass would get. */
  datatype Pass = Pass(humidity: seq<Reading>, temperature: seq<Reading>, sgp: SgpOutcome)

  /** Enough answers for every try the configuration allows. */
  predicate Answers(cfg: Config, pass: Pass)
  {
    Tries(cfg.tryCount) <= |pass.humidity| && Tries(cfg.tryCount) <= |pass.temperature|
  }

  /** `uint32_t min_interval = max(READ_INTERVAL, 1000)` */
  function MinInterval(cfg: Config): (m: U32)
    ensures cfg.readInterval < TWO_32 ==> 1000 <= m && cfg.readInterval <= m
    ensures cfg.readInterval < TWO_32 ==> m == 1000 || m == cfg.readInterval
  {
    Wrap32(if cfg.readInterval > 1000 then cfg.readInterval else 1000)
  }

  /** `current_time - previous_read_time` in `uint32_t`: the time since the
      last pass, correct across one wrap of the millisecond clock. */
  function Elapsed(now: U32, previous: U32): (e: U32)
    ensures previous <= now ==> e == now - previous
    ensures now < previous ==> e == now - previous + TWO_32
  {
    Wrap32(now - previous)
  }

  /** The pass actually ran: its first event is the time stamp. */
  predicate Sampled(r: Step, now: U32)
  {
    |r.trace| > 0 && r.trace[0] == Stamped(now)
  }

  /** Which sensor a driver call belongs to, in the order a pass visits them. */
  function Stage(c: Call): nat
  {
    match c
    case ReadHumidity => 0
    case ReadTemperature => 1
    case ComputeHeatIndex => 2
    case _ => 3
  }

  /** The calls visit the sensors in stage order, never going back. */
  predicate InStageOrder(calls: seq<Call>)
  {
    forall i, j :: 0 <= i < j < |calls| ==> Stage(calls[i]) <= Stage(calls[j])
  }

  /** The calls visit stages up to `k` only, in stage order. */
  predicate UpTo(calls: seq<Call>, k: nat)
  {
    InStageOrder(calls) && forall i :: 0 <= i < |calls| ==> Stage(calls[i]) <= k
  }

  /** Every call belongs to stage `k`. */
  predicate AllInStage(calls: seq<Call>, k: nat)
  {
    forall i :: 0 <= i < |calls| ==> Stage(calls[i]) == k
  }

  /** Appending calls of one later stage keeps the order. */
  lemma Extend(a: seq<Call>, b: seq<Call>, j: nat, k: nat)
    requires UpTo(a, j) && j <= k
    requires AllInStage(b, k)
    ensures UpTo(a + b, k)
  {
  }

  /** Lines 247-252: stamp the time, then humidity, temperature, heat index
      and the air-quality sensor, each seeing the results of the ones before. */
  function SamplePass(cfg: Config, nums: Numerics, s: DeviceState, now: U32, pass: Pass): (r: Step)
    requires Answers(cfg, pass)
    ensures Sampled(r, now)
    ensures r.state.previousReadTime == now
    ensures r.state.sgpSerial == s.sgpSerial
    ensures Valid(s) ==> Valid(r.state)
    ensures r.state.humidity
         == Dht.ReadCalibrated(pass.humidity, cfg.tryCount, Call.ReadHumidity, s.humidity,
                               cfg.humidityOffset, Dht.HUMIDITY_MESSAGE, Dht.HUMIDITY_ERROR).value
    ensures r.state.temperature
         == Dht.ReadCalibrated(pass.temperature, cfg.tryCount, Call.ReadTemperature, s.temperature,
                               cfg.temperatureOffset, Dht.TEMPERATURE_MESSAGE, Dht.TEMPERATURE_ERROR).value
    ensures Measured(pass.sgp) ==>
      && r.state.tvoc == pass.sgp.tvoc && r.state.co2 == pass.sgp.eco2
      && r.state.h2 == pass.sgp.rawH2 && r.state.ethanol == pass.sgp.rawEthanol
    ensures Measured(pass.sgp) && Valid(s) ==> r.state.sgpCounter == (s.sgpCounter + 1) % BASELINE_INTERVAL
    ensures !Measured(pass.sgp) ==>
      && r.state.tvoc == s.tvoc && r.state.co2 == s.co2 && r.state.h2 == s.h2
      && r.state.ethanol == s.ethanol && r.state.sgpCounter == s.sgpCounter
  {
    var stamped := s.(previousReadTime := now);
    var h := Dht.ReadHumidity(cfg, stamped, pass.humidity);
    var t := Dht.ReadTemperature(cfg, h.state, pass.temperature);
    var hi := Dht.ReadHeatIndex(nums, t.state);
    var q := ReadSgp(nums, hi.state, pass.sgp);
    Step(q.state, [Stamped(now)] + h.trace + t.trace + hi.trace + q.trace)
  }

  /** The time is stamped first; the driver calls then go humidity,
      temperature, heat index, air quality, never back to an earlier sensor. */
  lemma PassOrder(cfg: Config, nums: Numerics, s: DeviceState, now: U32, pass: Pass)
    requires Answers(cfg, pass)
    ensures var r := SamplePass(cfg, nums, s, now, pass);
      r.trace[0] == Stamped(now) && InStageOrder(Calls(r.trace))
  {
    var stamped := s.(previousReadTime := now);
    var h := Dht.ReadHumidity(cfg, stamped, pass.humidity);
    var t := Dht.ReadTemperature(cfg, h.state, pass.temperature);
    var hi := Dht.ReadHeatIndex(nums, t.state);
    var q := ReadSgp(nums, hi.state, pass.sgp);
    HumidityStage(cfg, stamped, pass.humidity);
    TemperatureStage(cfg, h.state, pass.temperature);
    HeatIndexStage(nums, t.state);
    SgpStage(nums, hi.state, pass.sgp);
    CallsInStageOrder(now, h.trace, t.trace, hi.trace, q.trace);
    assert SamplePass(cfg, nums, s, now, pass).trace == [Stamped(now)] + h.trace + t.trace + hi.trace + q.trace;
  }

  /** The derived values are computed from the humidity and temperature just
      read: the stored heat index is NaN exactly when one of them is, and the
      compensation sent to the air-quality sensor is computed from them. */
  lemma PassUsesFreshReadings(cfg: Config, nums: Numerics, s: DeviceState, now: U32, pass: Pass)
    requires Answers(cfg, pass)
    ensures var r := SamplePass(cfg, nums, s, now, pass);
      && (r.state.heatIndex.NaN? <==> r.state.humidity.NaN? || r.state.temperature.NaN?)
      && (r.state.heatIndex.Val? ==>
            r.state.heatIndex.v == nums.heatIndex(r.state.temperature.v, r.state.humidity.v))
      && SetCompensation(AbsoluteHumidity(nums, r.state.temperature, r.state.humidity)) in Calls(r.trace)
  {
    var stamped := s.(previousReadTime := now);
    var h := Dht.ReadHumidity(cfg, stamped, pass.humidity);
    var t := Dht.ReadTemperature(cfg, h.state, pass.temperature);
    var hi := Dht.ReadHeatIndex(nums, t.state);
    var q := ReadSgp(nums, hi.state, pass.sgp);
    SgpCalls(nums, hi.state, pass.sgp);
    CompensationCalled([Stamped(now)] + h.trace + t.trace + hi.trace, q.trace,
                       AbsoluteHumidity(nums, hi.state.temperature, hi.state.humidity));
  }

  lemma HumidityStage(cfg: Config, s: DeviceState, produced: seq<Reading>)
    requires Tries(cfg.tryCount) <= |produced|
    ensures AllInStage(Calls(Dht.ReadHumidity(cfg, s, produced).trace), 0)
  {
  }

  lemma TemperatureStage(cfg: Config, s: DeviceState, produced: seq<Reading>)
    requires Tries(cfg.tryCount) <= |produced|
    ensures AllInStage(Calls(Dht.ReadTemperature(cfg, s, produced).trace), 1)
  {
  }

  lemma HeatIndexStage(nums: Numerics, s: DeviceState)
    ensures AllInStage(Calls(Dht.ReadHeatIndex(nums, s).trace), 2)
  {
  }

  lemma SgpStage(nums: Numerics, s: DeviceState, o: SgpOutcome)
    ensures AllInStage(Calls(ReadSgp(nums, s, o).trace), 3)
  {
    SgpCalls(nums, s, o);
  }

  lemma CallsInStageOrder(now: U32, h: seq<Event>, t: seq<Event>, hi: seq<Event>, q: seq<Event>)
    requires AllInStage(Calls(h), 0) && AllInStage(Calls(t), 1)
    requires AllInStage(Calls(hi), 2) && AllInStage(Calls(q), 3)
    ensures InStageOrder(Calls([Stamped(now)] + h + t + hi + q))
  {
    var head := [Stamped(now)];
    var a, b, c, d := Calls(h), Calls(t), Calls(hi), Calls(q);
    CallsCons(Stamped(now), h);
    assert Calls(head + h) == a;
    CallsAppend(head + h, t);
    CallsAppend(head + h + t, hi);
    CallsAppend(head + h + t + hi, q);
    assert Calls(head + h + t + hi + q) == a + b + c + d;
    assert UpTo(a, 0);
    Extend(a, b, 0, 1);
    Extend(a + b, c, 1, 2);
    Extend(a + b + c, d, 2, 3);
  }

  lemma CompensationCalled(prefix: seq<Event>, q: seq<Event>, compensation: Reading)
    requires |Calls(q)| > 0 && Calls(q)[0] == SetCompensation(compensation)
    ensures SetCompensation(compensation) in Calls(prefix + q)
  {
    CallsAppend(prefix, q);
    assert Calls(prefix + q)[|Calls(prefix)|] == SetCompensation(compensation);
  }

  /** `read_sensors(force)` at time `now`: a pass runs when forced or when at
      least the minimum interval has gone by since the last one; otherwise
      nothing changes, the time stamp included. */
  function ReadSensors(cfg: Config, nums: Numerics, s: DeviceState, now: U32, force: bool, pass: Pass): (r: Step)
    requires Answers(cfg, pass)
    ensures Sampled(r, now) <==> force || Elapsed(now, s.previousReadTime) >= MinInterval(cfg)
    ensures !Sampled(r, now) ==> r.state == s && r.trace == [Logged(Debug, RECENT_MESSAGE)]
    ensures Sampled(r, now) ==> r == SamplePass(cfg, nums, s, now, pass)
  {
    if !force && Elapsed(now, s.previousReadTime) < MinInterval(cfg) then
      Step(s, [Logged(Debug, RECENT_MESSAGE)])
    else
      SamplePass(cfg, nums, s, now, pass)
  }

  /** A pass keeps the scheduler quiet: until the minimum interval has gone
      by, later unforced calls read nothing and change nothing. */
  lemma QuietAfterPass(cfg: Config, nums: Numerics, s: DeviceState, t0: U32, t1: U32,
                       force: bool, first: Pass, second: Pass)
    requires Answers(cfg, first) && Answers(cfg, second)
    requires Sampled(ReadSensors(cfg, nums, s, t0, force, first), t0)
    requires Elapsed(t1, t0) < MinInterval(cfg)
    ensures var mid := ReadSensors(cfg, nums, s, t0, force, first).state;
      ReadSensors(cfg, nums, mid, t1, false, second) == Step(mid, [Logged(Debug, RECENT_MESSAGE)])
  {
  }

  /** The clock wraps after about 49.7 days; the unsigned subtraction still
      sees 700 ms between a pass 500 ms before the wrap and a call 200 ms
      after it, so a 1000 ms limit holds the call back. */
  lemma LimitAcrossClockWrap(cfg: Config, nums: Numerics, s: DeviceState, pass: Pass)
    requires Answers(cfg, pass)
    requires cfg.readInterval <= 1000
    requires s.previousReadTime == TWO_32 - 500
    ensures !Sampled(ReadSensors(cfg, nums, s, 200, false, pass), 200)
    ensures ReadSensors(cfg, nums, s, 200, false, pass).state == s
  {
  }

  /** `setup` as far as the core goes (src/src.cpp:49-58): bring up the
      air-quality sensor, then force a first pass whatever the clock says. */
  function Setup(cfg: Config, nums: Numerics, now: U32, begin: Option<SerialWords>, pass: Pass): (r: Step)
    requires Answers(cfg, pass)
    ensures Valid(r.state)
    ensures r.state.previousReadTime == now
    ensures begin.None? ==> r.state.sgpSerial == ""
    ensures begin.Some? ==> r.state.sgpSerial == SerialString(begin.value)
    ensures Begin in Calls(r.trace)
    ensures Stamped(now) in r.trace
    ensures r.state == SamplePass(cfg, nums, SetupSgp(PowerOn, begin).state, now, pass).state
  {
    var sgp := SetupSgp(PowerOn, begin);
    var first := ReadSensors(cfg, nums, sgp.state, now, true, pass);
    CallsAppend(sgp.trace, first.trace);
    assert Calls(sgp.trace)[0] == Begin;
    assert (sgp.trace + first.trace)[|sgp.trace|] == Stamped(now);
    Step(first.state, sgp.trace + first.trace)
  }
}
